=== FILE: README.md ===
# RemotPhone pairing and relay broker, modelled in Dafny

RemotPhone lets a phone (the controlled device) and a pc (the operator's
browser) meet through a WebSocket server. The phone sends `phone_register`
and receives a six-digit pairing code. The pc sends `pc_connect` with that
code. From then on the server relays JSON messages and binary screen frames
between the two. It also pings every socket periodically and drops the ones
that stop answering, and it removes sessions older than 24 hours.

This project models that broker (`server/server.js`) as a pure state machine.
Node runs each handler to completion on one event loop, so the broker is a
function `Broker.Step(state, event)`. It returns the next state plus the
socket operations the handler issued, in order: `send`, `ping` and
`terminate`.

Files and modules:

- `optional.dfy` (`Optional`): the option type that stands for `null`/`undefined`.
- `seqs.dfy` (`Seqs`): insertion-ordered collections. A JS `Map` and `Set`
  iterate in insertion order, and the heartbeat and the cleanup sweep depend
  on that order.
- `json.dfy` (`Json`): the value `JSON.parse` returns, plus JS truthiness,
  property reads and `x || {}`.
- `codes.dfy` (`Codes`): `crypto.randomInt(100000, 999999).toString()` and
  the retry loop of `generateCode`.
- `protocol.dfy` (`Protocol`): the `switch (msg.type)` case labels as a
  static routing table.
- `broker.dfy` (`Broker`): state, events, the handlers, the heartbeat, the
  sweep, `/api/status` and `Step`.
- `invariants.dfy` (`Invariants`): the state invariant `Valid`. It holds
  initially and after every event.
- `properties.dfy` (`Properties`): properties that span several events, such
  as pairing end to end, departures, liveness and expiry.
- `as_written.dfy` (`AsWritten`): the one place where the code as written
  crashes (see Findings).

Modelling choices:

- A socket is a `ConnId` with a record holding `role`, `sessionCode`,
  `isAlive` and a `ReadyState`. `Open` means `readyState === 1`. An open
  socket moves to `Closing` when the server calls `terminate()` or when the
  peer starts a close handshake (the event `CloseHandshake`). The later
  `close` event moves it to `Closed` and runs the close handler once.
- The `message` listener runs for every socket that has not closed, including
  one that is `Closing`. Every send in the handlers that targets another
  socket checks `readyState === 1` first, so a `Closing` target gets nothing.
- The operations of a `Transition` are what the handler issued. A reply to
  the sender is issued whatever the sender's state; `ws` discards a send to a
  socket that is not open.
- The state keeps every socket ever accepted, so stale references held by
  sessions can still be resolved. `clients` is `wss.clients` in insertion
  order. `sessionOrder` is the key order of `sessions`.
- `Date.now()` is the `now` field of an event. The results of
  `crypto.randomInt` are the `draws` of a `Message` event. Each draw lies in
  [100000, 999999), because the upper bound of `randomInt` is exclusive.
  Registration uses the first draw whose code is not a live key. When every
  supplied draw collides, the outcome is `Stalled`: the retry loop has not
  exited yet.
- The `setInterval` timers are the events `HeartbeatTick` and
  `CleanupTick(now)`.

Details of `server.js` the model keeps:

- Codes lie in [100000, 999998], because the upper bound of
  `crypto.randomInt` is exclusive.
- The registration and pairing messages are `phone_register` and
  `pc_connect`, and the roles are `'phone'` and `'pc'`.
- Both the command branch and the event branch relay in either direction, to
  the slot opposite the sender's role. Neither drops a message because of its
  direction.
- When a phone disconnects, its session is deleted but the pc socket is not
  closed. The pc keeps its stale `sessionCode`, so its relay messages are
  dropped as long as no new session holds that code. Once a later
  `phone_register` draws the same number, the stale pc's commands reach the
  new session's phone, a socket it never paired with, and a `pc_connect` with
  the old code succeeds again.
- Any socket may send `phone_register` or `pc_connect` again, which changes
  its role and session code. The close handler empties the pc slot without
  checking that the slot holds the closing socket.
- `ping` is answered even for sockets without a role.

## Model

| member | source | states |
|---|---|---|
| Codes.CodeOf | server/server.js:24 | the key made from one draw is six decimal digits without a leading zero, its value is in [100000, 999998], and it reads back as the draw |
| Codes.CodeOfBijective | server/server.js:24 | two draws give the same code exactly when they are equal, and every pairing code is the code of some draw |
| Codes.Decimal | server/server.js:24 | `toString()` of a natural number is a non-empty digit string that starts with `0` exactly when the number is zero |
| Codes.ValueOfDecimal | server/server.js:24 | reading the decimal string that `toString()` writes gives back the number |
| Codes.DecimalOfValue | server/server.js:24 | a digit string without a leading zero is exactly the `toString()` of its value |
| Codes.DecimalLength | server/server.js:24 | a number with k+1 digits is written with k+1 characters, so every draw becomes a six-character code |
| Codes.FirstFreshDraw | server/server.js:21-27 | the retry loop stops at the first draw whose code is not a live key and every earlier draw collided; it keeps going exactly when every draw collides |
| Json.TypeName | server/server.js:57 | the value `switch (msg.type)` compares is `msg.type` itself when it is a string; a missing or non-string `type` yields nothing, since it equals no string case label |
| Json.OrEmptyObject | server/server.js:65 | `deviceInfo` or `{}` is the device info when it is truthy and an empty object otherwise, so the stored info is always truthy |
| Protocol.Classify | server/server.js:57-186 | each explicit branch is taken exactly for its case labels (25 command types, 12 event types, `phone_register`, `pc_connect`, `ping`), and the default branch exactly for everything else, including a missing or non-string `type` |
| Broker.OppositeOf | server/server.js:193 | for a socket with a role, the peer named by `ws.role === 'pc' ? session.phone : session.pc` is the slot of the other role |
| Broker.RelayTarget | server/server.js:139-180 | the command, event and default branches all target the slot opposite the sender's role, even though the event branch tests the role the other way round |
| Broker.HandleBinary | server/server.js:41-50 | a binary frame never changes state; it is forwarded byte for byte to the session's pc exactly when the sender is a phone with a live session and that pc is open, and is otherwise dropped |
| Broker.HandleRegister | server/server.js:59-76 | registration adds exactly the new key and keeps all other sessions; the new session has the sender as phone, an empty pc slot, creation time `now` and info `deviceInfo` or `{}`; only the sender's role and code change; one `registered` reply carries the code |
| Broker.RequestedCode | server/server.js:80-81 | the key looked up is `msg.code` itself, and `sessions.get(msg.code)` can match only when `code` is a string |
| Broker.HandleConnect | server/server.js:79-107 | an unknown code or an occupied pc slot gives exactly one error reply (`Invalid code` or `Session already has a PC connected`) and changes nothing; otherwise only the pc slot and the sender's role and code change, the sender gets the stored phone info, and the phone is notified only when it is open |
| Broker.HandleRelay | server/server.js:134-185 | a relayed message never changes state; without a live session nothing is sent; otherwise the parsed message goes unchanged to the relay target, and only when that target is open |
| Broker.HandleText | server/server.js:37-187 | unparseable text and the text `null` get exactly one `Invalid message format` reply and change nothing; the handler stalls only on registration when every draw collides; `ping` gets one `pong` carrying `now` |
| Broker.HandleClose | server/server.js:189-210 | the socket becomes closed and leaves the client list; with a live session the opposite slot, if open, gets one `peer_disconnected` carrying the departing role; a phone's departure deletes the session and its order entry; any other departure only empties the pc slot; without a live session nothing else changes |
| Broker.Probe | server/server.js:220-222 | after a heartbeat no client is marked alive; a client stays open exactly when it was open and had answered the previous probe |
| Broker.HeartbeatOver | server/server.js:218-224 | each listed client is handled exactly once and in list order (terminated when not alive, otherwise marked not alive and pinged), one operation per client, and no other socket changes |
| Broker.SweepSessions | server/server.js:227-237 | the sweep removes exactly the sessions with `now - created > SESSION_TIMEOUT` and leaves every other session unchanged |
| Broker.SweepOrder | server/server.js:229-233 | the iteration order loses exactly the removed keys and stays free of duplicates |
| Broker.SweepConns | server/server.js:231-232 | exactly the phone and pc sockets of removed sessions are terminated; no other socket changes |
| Broker.SweepTerminates | server/server.js:231-232 | the sweep's only operations are `terminate` calls, one for every phone and pc of a removed session and none for any other socket |
| Broker.SessionOf | server/server.js:135-137 | the guard `ws.sessionCode` then `sessions.get(ws.sessionCode)` (repeated at lines 43-44, 159-161, 177-179 and 190-192) finds a session exactly when the socket's code is a live key, and then it is the session stored under that key |
| Broker.Deliver | server/server.js:139-142 | a send happens only when the target exists and is open, then exactly once, to that target, with the given reply |
| Broker.Terminated | server/server.js:220 | `terminate()` leaves no socket open, never closes it by itself, and changes neither its role, its session code nor its liveness flag |
| Broker.Dispatch | server/server.js:57-186 | the switch stalls exactly on registration when every draw collides; the command, event, ping and default branches never change state; and every branch changes at most the sender's role and session code and the sessions, never the clients or another socket |
| Broker.SweepOver | server/server.js:229-236 | the cleanup loop keeps the client list and the set of known sockets |
| Broker.Step | server/server.js:30-237 | only a text frame asking to register can stall; a frame from a closed socket does nothing; only a connection adds a socket; a connection, pong, close handshake or heartbeat never touches the sessions |
| Broker.Status | server/server.js:240-246 | `connectedClients` equals the number of sockets not yet closed; `activeSessions` equals the number of sessions |
| Invariants.StepPreservesValid | server/server.js:16-237 | every event keeps the state invariant: live keys are pairing codes, the insertion orders list exactly the live keys and the unclosed sockets once each, role and session code are set together, and sessions refer to known sockets |
| Invariants.InitialValid | server/server.js:16 | the empty broker satisfies the invariant |
| Invariants.ReadyStateNeverRegresses | server/server.js:30-237 | no event reopens a socket or forgets one: an open socket may become closing or closed, a closing one may become closed, and a closed one stays closed |
| Properties.ConnectionOpensClient | server/server.js:30-33 | a new socket is open, alive, has no role and no session, and is appended to the clients; nothing else changes |
| Properties.RegisterAddsOneSession | server/server.js:59-75 | at the level of `Step`, registration stalls exactly when every draw collides; otherwise it adds one session under a fresh pairing code and replies once with that code |
| Properties.RegisterThenConnect | server/server.js:59-104 | after a phone registers, another socket that sends the returned code gets `connected` with the phone's info, the phone gets `pc_connected`, and the two are paired |
| Properties.ConnectToFreshSession | server/server.js:90-104 | `pc_connect` to a session with an open registered phone and an empty pc slot sends `connected` and then `pc_connected`, and leaves the two sockets paired |
| Properties.AttachStep | server/server.js:90-104 | `pc_connect` from an open socket to a live session with an empty pc slot fills only that slot and the sender's role and code |
| Properties.PairedRelay | server/server.js:41-185 | between paired sockets every relay branch delivers the message unchanged to the other socket and never back to the sender; binary frames reach the pc from the phone and are dropped in the other direction |
| Properties.UnknownCodeRejected | server/server.js:79-86 | `pc_connect` with a code that is not a live key gets exactly one `Invalid code` reply and changes nothing |
| Properties.RelayWithoutSessionDropped | server/server.js:134-185 | a message taking the command, event or default branch from a socket whose code names no live session changes nothing and sends nothing |
| Properties.PhoneCloseInvalidatesCode | server/server.js:189-203 | in the step right after the phone closes, its code is gone and the next `pc_connect` with it gets `Invalid code`; the pc, if open, is told first; no other socket changes, and a relay message from the stale pc is dropped silently |
| Properties.StaleCodeReachesLaterPhone | server/server.js:134-141 | once a later `phone_register` draws the code a departed phone left behind, the session lookup finds the new session under the pc's stale code, and the pc's commands are relayed to the new phone |
| Properties.PcCloseFreesSlot | server/server.js:189-207 | after the pc closes, the session keeps its code with an empty pc slot, the phone, if open, is told, and a new `pc_connect` with the same code succeeds |
| Properties.CloseIsIdempotent | server/server.js:189-210 | a second `close` event for the same socket changes nothing and sends nothing |
| Properties.PongMarksAlive | server/server.js:35 | a pong sets `isAlive` back to true and changes nothing else |
| Properties.HeartbeatProbesEveryClient | server/server.js:218-224 | one heartbeat terminates exactly the clients that missed the last probe, pings the others, keeps the sessions, and leaves non-clients alone |
| Properties.SilentSocketsDieWithinTwoTicks | server/server.js:218-224 | two heartbeats with no pong in between leave no socket open |
| Properties.AliveClientIsPinged | server/server.js:219-222 | a client that answered its last probe stays open through the next heartbeat and is pinged, not terminated |
| Properties.PongBetweenTicksKeepsAlive | server/server.js:218-224 | a socket that answers the probe between two heartbeats survives both |
| Properties.SweepRemovesExactlyExpired | server/server.js:227-237 | the cleanup tick removes exactly the sessions older than 24 hours, whatever their traffic, keeps the others unchanged, and terminates exactly their phone and pc sockets |
| Json.ReadProp | server/server.js:57 | the property read `msg.type` throws exactly when the parsed value is `null`, and otherwise yields the member or `undefined` |
| AsWritten.HandleTextAsWritten | server/server.js:51-57 | with the property read that can throw, the handler as written crashes exactly on the parsed value `null`, and on every other input agrees with the corrected `HandleText` |
| AsWritten.StepAsWritten | server/server.js:37-57 | at the level of events, the code as written crashes exactly on a text frame `null` from a socket that has not closed, and otherwise behaves like `Step` |
| AsWritten.NullFrameCrashes | server/server.js:51-57 | with one connected socket, a text frame `null` ends the process |
| AsWritten.NullFrameAnsweredWhenCorrected | server/server.js:52-54 | in the corrected model, a text frame `null` gets the format error and changes nothing |

## Left out

- HTTP and static serving are left out: Express static files, `server.listen`,
  `PORT` and the startup banner are I/O plumbing.
- `uptime` in `/api/status` is left out: it is a floating-point runtime
  reading. The other two counts are modelled.
- The `error` handler only logs. It is left out, and so is all `console`
  logging.
- The `ws` transport is reduced to `send`, `ping` and `terminate` as outbound
  operations. Whether a send or ping on a closing socket reaches anyone is
  the transport's business.
- The model assumes `ws` delivers text frames as strings. A `ws` version that
  hands every frame over as a `Buffer` would send all frames down the binary
  path (server/server.js:41-49), so no text message would ever be parsed. The
  `ws` version is not part of this model. server/server.js:2 imports the named
  export `WebSocketServer`, which points to `ws` 8 or later, and that line of
  `ws` delivers text frames as `Buffer`s.
- `JSON.stringify` is not modelled. A relayed message is carried as the parsed
  value, so "unchanged" means equal as JSON values, not byte-equal as text.
  JSON numbers are exact reals, not doubles. So the model differs from
  `JSON.parse` where rounding matters: `1e400` parses to `Infinity` (relayed
  by `JSON.stringify` as `null`), and `1e-400` parses to `0`, which is falsy,
  so `deviceInfo: 1e-400` is stored as `{}` while `OrEmptyObject` keeps the
  number.
- The human-readable `message` fields of the `registered`, `connected`,
  `pc_connected` and `peer_disconnected` replies (server/server.js:72, 96,
  102, 198) are dropped from `Reply`. Each is a constant or is derived from the role or
  code the reply already carries.
- Cryptographic randomness is replaced by explicit draws. That the retry loop
  ends (with probability one) cannot be proved; `Stalled` marks a run that
  has not ended within the draws given.
- Timers and the clock are explicit tick events and `now` values. The 30 s
  and 60 s periods only decide when ticks arrive, so they do not appear.
- The Android agent is left out: capture, gestures, SMS, files, clipboard and
  notifications are platform-API plumbing on the other side of the wire
  protocol.
- Broker.SweepTerminates: states which sockets the sweep terminates, not how
  many times or in what order (phone before pc, session by session). The
  operation list of `SweepOver` does fix that order.
- Broker.HeartbeatOver: a `ping` is issued for every alive client, including
  one that is already closing, where `ws` drops it. The model does not
  distinguish the two.

## Findings

| source | as written | input that shows it | evidently intended | confidence | as-written member | corrected member |
|---|---|---|---|---|---|---|
| server/server.js:51-57 | `JSON.parse` is inside the `try`, but `switch (msg.type)` is outside it; `JSON.parse('null')` returns `null`, so reading `.type` throws a TypeError from the `message` listener that nothing catches, and the Node process exits | any socket sends the text frame `null`, with a `ws` that passes text frames as strings (before version 8); a `ws` that passes them as `Buffer`s takes the binary path of server/server.js:41-49 instead and nothing crashes | reply `Invalid message format` as for other unusable text and keep serving | low, not executed; reachable only with a `ws` older than 8, while the `WebSocketServer` import of server/server.js:2 suggests 8 or later | AsWritten.HandleTextAsWritten | Broker.HandleText |

=== FILE: as_written.dfy ===
/**
 * The `message` listener exactly as server/server.js writes it, where it
 * differs from `Broker.Step`. `JSON.parse` sits inside the `try`, but the
 * `switch (msg.type)` that follows stands outside it, so a property read that
 * throws escapes the listener. Nothing catches it, and an uncaught exception
 * ends the Node process: every session and socket is lost. `Broker.HandleText`
 * answers the one frame that does this like any other unusable text. Like the
 * rest of the model, this assumes `ws` hands text frames over as strings; one
 * that hands them over as `Buffer`s routes every frame to the binary branch,
 * where nothing is parsed and nothing throws.
 */
module AsWritten {
  import opened Optional
  import opened Json
  import opened Codes
  import opened Broker

  /** One event as server.js runs it: either the handler completes, or the process dies. */
  datatype Run = Ran(o: Outcome) | Crashed

  /**
   * A text frame as written: text `JSON.parse` rejects gets the format error
   * from the `catch`; otherwise `msg.type` is read, unprotected, and the value
   * read picks the branch. The read throws exactly on the text `null`, and on
   * every other frame the listener does what the corrected handler does.
   */
  function HandleTextAsWritten(s: State, id: ConnId, parsed: Option<Json>, now: int, draws: seq<Draw>): (r: Run)
    requires id in s.conns
    ensures r.Crashed? <==> parsed == Some(JNull)
    ensures r.Ran? ==> r.o == HandleText(s, id, parsed, now, draws)
  {
    match parsed
    case None => Ran(Next(Transition(s, [Send(id, ErrorReply(INVALID_FORMAT))])))
    case Some(msg) =>
      match ReadProp(msg, "type")
      case None => Crashed
      case Some(_) => Ran(Dispatch(s, id, msg, now, draws))
  }

  /**
   * `Step` as written: text frames go through the unprotected handler; binary
   * frames and every other event run the same code as in the corrected step.
   * The broker crashes exactly when a socket whose listener still runs sends
   * the text `null`.
   */
  function StepAsWritten(s: State, e: Event): (r: Run)
    requires Valid(s)
    ensures r.Crashed? <==> e.Message? && Listening(s, e.id) && e.frame == Text(Some(JNull))
    ensures r.Ran? ==> r.o == Step(s, e)
  {
    match e
    case Message(id, Text(parsed), now, draws) =>
      if Listening(s, id) then HandleTextAsWritten(s, id, parsed, now, draws) else Ran(Step(s, e))
    case _ => Ran(Step(s, e))
  }

  /** One connected socket and no sessions. */
  const OneClient: State := State(map[], [], map[1 := Conn(Open, None, None, true)], [1])

  /** The four bytes `null` sent as a text frame by any connected socket bring the broker down. */
  lemma NullFrameCrashes()
    ensures Valid(OneClient)
    ensures StepAsWritten(OneClient, Message(1, Text(Some(JNull)), 0, [])) == Crashed
  {
  }

  /** The corrected step answers `null` with the format error and changes nothing. */
  lemma NullFrameAnsweredWhenCorrected(s: State, id: ConnId, now: int, draws: seq<Draw>)
    requires Valid(s) && Listening(s, id)
    ensures Step(s, Message(id, Text(Some(JNull)), now, draws))
      == Next(Transition(s, [Send(id, ErrorReply(INVALID_FORMAT))]))
  {
  }
}

=== FILE: broker.dfy ===
/**
 * The pairing and relay broker of server/server.js as a sequential state
 * machine. Node runs every handler to completion on one event loop, so each
 * socket event, timer tick and pong is one `Step` from a state to the next
 * state plus the frames and socket operations the handler issued, in order.
 */
module Broker {
  import opened Optional
  import opened Seqs
  import opened Json
  import opened Codes
  import opened Protocol

  /** Identity of one accepted WebSocket object. */
  type ConnId = nat

  /** Age in milliseconds beyond which the cleanup sweep removes a session (24 hours). */
  const SESSION_TIMEOUT: int := 24 * 60 * 60 * 1000

  const INVALID_FORMAT: string := "Invalid message format"
  const INVALID_CODE: string := "Invalid code"
  const PC_ALREADY_CONNECTED: string := "Session already has a PC connected"

  /**
   * `readyState`: 1 (OPEN); CLOSING after `terminate()` or once the peer's close
   * frame arrived; CLOSED once `close` was emitted.
   */
  datatype ReadyState = Open | Closing | Closed

  datatype Role = Phone | Pc

  /** The fields the broker attaches to each socket: `role`, `sessionCode`, `isAlive`. */
  datatype Conn = Conn(ready: ReadyState, role: Option<Role>, sessionCode: Option<string>, isAlive: bool)

  /** A value of the `sessions` map. The phone slot is set at creation and never cleared. */
  datatype Session = Session(phone: ConnId, pc: Option<ConnId>, created: int, phoneInfo: Json)

  /**
   * `sessions` with its insertion order (the order `for ... of` visits it), and
   * every socket ever accepted with `wss.clients` in insertion order.
   */
  datatype State = State(
    sessions: map<string, Session>,
    sessionOrder: seq<string>,
    conns: map<ConnId, Conn>,
    clients: seq<ConnId>)

  /** An inbound frame: binary bytes, or text that `JSON.parse` rejected (`None`) or accepted. */
  datatype Frame = Binary(bytes: seq<bv8>) | Text(parsed: Option<Json>)

  /** The payload of one `send`: a broker reply, a relayed message or relayed bytes. */
  datatype Reply =
    | Registered(code: string)
    | Connected(deviceInfo: Json)
    | PcConnected
    | PeerDisconnected(role: Option<Role>)
    | ErrorReply(message: string)
    | Pong(timestamp: int)
    | Relayed(msg: Json)
    | Raw(bytes: seq<bv8>)

  /** One socket operation issued by a handler. */
  datatype Out = Send(to: ConnId, reply: Reply) | PingFrame(to: ConnId) | Terminate(to: ConnId)

  /**
   * The events that run handler code. `now` stands for `Date.now()`; `draws`
   * are the successive results of `crypto.randomInt` available to `generateCode`.
   * `CloseHandshake` runs no broker code: the peer's close frame arrived, `ws`
   * answers it, and the socket is CLOSING until its `close` event.
   */
  datatype Event =
    | Connection(id: ConnId)
    | Message(id: ConnId, frame: Frame, now: int, draws: seq<Draw>)
    | PongFrame(id: ConnId)
    | CloseHandshake(id: ConnId)
    | Close(id: ConnId)
    | HeartbeatTick
    | CleanupTick(now: int)

  datatype Transition = Transition(state: State, outs: seq<Out>)

  /** `Stalled`: every draw supplied collided with a live code, so the retry loop has not exited. */
  datatype Outcome = Next(t: Transition) | Stalled

  const Initial: State := State(map[], [], map[], [])

  /** The invariant every reachable state keeps. */
  ghost predicate Valid(s: State)
  {
    && (forall code :: code in s.sessions ==> IsPairingCode(code))
    && NoDups(s.sessionOrder)
    && (forall code :: code in s.sessionOrder <==> code in s.sessions)
    && NoDups(s.clients)
    && (forall id :: id in s.clients <==> id in s.conns && s.conns[id].ready != Closed)
    && (forall id :: id in s.conns ==> (s.conns[id].sessionCode.Some? <==> s.conns[id].role.Some?))
    && (forall id :: id in s.conns && s.conns[id].sessionCode.Some? ==> IsPairingCode(s.conns[id].sessionCode.value))
    && (forall code :: code in s.sessions ==> s.sessions[code].phone in s.conns)
    && (forall code :: code in s.sessions && s.sessions[code].pc.Some? ==> s.sessions[code].pc.value in s.conns)
  }

  /** `readyState === 1`. */
  predicate IsOpen(s: State, id: ConnId)
  {
    id in s.conns && s.conns[id].ready == Open
  }

  /** The socket has not emitted `close`, so its `message` listener still runs. */
  predicate Listening(s: State, id: ConnId)
  {
    id in s.conns && s.conns[id].ready != Closed
  }

  /** `if (target && target.readyState === 1) target.send(reply)`. */
  function Deliver(s: State, target: Option<ConnId>, reply: Reply): (outs: seq<Out>)
    ensures |outs| <= 1
    ensures |outs| == 1 <==> target.Some? && IsOpen(s, target.value)
    ensures |outs| == 1 ==> outs[0] == Send(target.value, reply)
  {
    if target.Some? && IsOpen(s, target.value) then [Send(target.value, reply)] else []
  }

  /** The live session a socket's `sessionCode` names, if any. */
  function SessionOf(s: State, id: ConnId): (r: Option<Session>)
    requires id in s.conns
    ensures r.Some? <==> s.conns[id].sessionCode.Some? && s.conns[id].sessionCode.value in s.sessions
    ensures r.Some? ==> r.value == s.sessions[s.conns[id].sessionCode.value]
  {
    var c := s.conns[id];
    if c.sessionCode.Some? && c.sessionCode.value in s.sessions then Some(s.sessions[c.sessionCode.value]) else None
  }

  /** The slot of a session that holds the given role. */
  function Slot(sess: Session, r: Role): Option<ConnId>
  {
    match r
    case Phone => Some(sess.phone)
    case Pc => sess.pc
  }

  function Other(r: Role): Role
  {
    match r
    case Phone => Pc
    case Pc => Phone
  }

  /** `ws.role === 'pc' ? session.phone : session.pc`: the peer of the command, default and close paths. */
  function OppositeOf(sess: Session, role: Option<Role>): (t: Option<ConnId>)
    ensures role.Some? ==> t == Slot(sess, Other(role.value))
  {
    if role == Some(Pc) then Some(sess.phone) else sess.pc
  }

  /** Which of the three relay branches handled a message. */
  datatype RelayBranch = CommandRelay | EventRelay | DefaultRelay

  /**
   * The target socket of a relay branch. The event branch tests the role the
   * other way round (`ws.role === 'phone' ? session.pc : session.phone`); for a
   * sender with a role all three pick the slot opposite that role.
   */
  function RelayTarget(branch: RelayBranch, sess: Session, role: Option<Role>): (t: Option<ConnId>)
    ensures role.Some? ==> t == Slot(sess, Other(role.value))
  {
    match branch
    case EventRelay => if role == Some(Phone) then sess.pc else Some(sess.phone)
    case _ => OppositeOf(sess, role)
  }

  /**
   * A binary frame: forwarded byte for byte to the session's pc when the sender
   * is a phone with a live session and that pc is open; otherwise dropped.
   * No reply to the sender and no state change.
   */
  function HandleBinary(s: State, id: ConnId, bytes: seq<bv8>): (t: Transition)
    requires id in s.conns
    ensures t.state == s
    ensures |t.outs| <= 1
    ensures |t.outs| == 1 <==>
      && s.conns[id].role == Some(Phone)
      && SessionOf(s, id).Some?
      && SessionOf(s, id).value.pc.Some?
      && IsOpen(s, SessionOf(s, id).value.pc.value)
    ensures |t.outs| == 1 ==> t.outs[0] == Send(SessionOf(s, id).value.pc.value, Raw(bytes))
  {
    if s.conns[id].role == Some(Phone) then
      match SessionOf(s, id)
      case Some(sess) => Transition(s, Deliver(s, sess.pc, Raw(bytes)))
      case None => Transition(s, [])
    else Transition(s, [])
  }

  /**
   * `phone_register` once `generateCode` returned `code`: a new session keyed by
   * `code` whose phone is the sender, whose pc slot is empty and whose info is
   * `deviceInfo || {}`; the sender becomes its phone and is told the code.
   */
  function HandleRegister(s: State, id: ConnId, msg: Json, now: int, code: string): (t: Transition)
    requires id in s.conns
    requires code !in s.sessions
    ensures t.state.sessions.Keys == s.sessions.Keys + {code}
    ensures t.state.sessions[code] == Session(id, None, now, OrEmptyObject(Member(msg, "deviceInfo")))
    ensures forall c :: c in s.sessions ==> t.state.sessions[c] == s.sessions[c]
    ensures t.state.sessionOrder == s.sessionOrder + [code]
    ensures t.state.conns.Keys == s.conns.Keys
    ensures t.state.conns[id] == s.conns[id].(role := Some(Phone), sessionCode := Some(code))
    ensures forall other :: other in s.conns && other != id ==> t.state.conns[other] == s.conns[other]
    ensures t.state.clients == s.clients
    ensures t.outs == [Send(id, Registered(code))]
  {
    var sess := Session(id, None, now, OrEmptyObject(Member(msg, "deviceInfo")));
    var c := s.conns[id];
    Transition(
      s.(sessions := s.sessions[code := sess],
         sessionOrder := s.sessionOrder + [code],
         conns := s.conns[id := c.(sessionCode := Some(code), role := Some(Phone))]),
      [Send(id, Registered(code))])
  }

  /** `msg.code` as a key `sessions.get` can match: only a string equals a string key. */
  function RequestedCode(msg: Json): (r: Option<string>)
    ensures r.Some? <==> Member(msg, "code").Some? && Member(msg, "code").value.JStr?
    ensures r.Some? ==> Member(msg, "code") == Some(JStr(r.value))
  {
    match Member(msg, "code")
    case Some(JStr(c)) => Some(c)
    case _ => None
  }

  /** `pc_connect` names a live session whose pc slot is empty. */
  predicate CanAttach(s: State, msg: Json)
  {
    RequestedCode(msg).Some? && RequestedCode(msg).value in s.sessions
    && s.sessions[RequestedCode(msg).value].pc.None?
  }

  /**
   * `pc_connect`. An unknown code, or a session whose pc slot is taken, gets one
   * error reply and changes nothing. Otherwise the sender fills the pc slot,
   * becomes a pc of that session, receives the stored phone info, and the phone
   * is told when it is open; no other session and no other socket changes.
   */
  function HandleConnect(s: State, id: ConnId, msg: Json): (t: Transition)
    requires id in s.conns
    ensures RequestedCode(msg).None? || RequestedCode(msg).value !in s.sessions ==>
      t == Transition(s, [Send(id, ErrorReply(INVALID_CODE))])
    ensures RequestedCode(msg).Some? && RequestedCode(msg).value in s.sessions && !CanAttach(s, msg) ==>
      t == Transition(s, [Send(id, ErrorReply(PC_ALREADY_CONNECTED))])
    ensures CanAttach(s, msg) ==>
      var code := RequestedCode(msg).value;
      var sess := s.sessions[code];
      && t.state.sessions == s.sessions[code := sess.(pc := Some(id))]
      && t.state.sessionOrder == s.sessionOrder
      && t.state.clients == s.clients
      && t.state.conns == s.conns[id := s.conns[id].(sessionCode := Some(code), role := Some(Pc))]
      && t.outs == [Send(id, Connected(sess.phoneInfo))] + Deliver(s, Some(sess.phone), PcConnected)
  {
    match RequestedCode(msg)
    case None => Transition(s, [Send(id, ErrorReply(INVALID_CODE))])
    case Some(code) =>
      if code !in s.sessions then Transition(s, [Send(id, ErrorReply(INVALID_CODE))])
      else
        var sess := s.sessions[code];
        if sess.pc.Some? then Transition(s, [Send(id, ErrorReply(PC_ALREADY_CONNECTED))])
        else
          var c := s.conns[id];
          var s' := s.(sessions := s.sessions[code := sess.(pc := Some(id))],
                       conns := s.conns[id := c.(sessionCode := Some(code), role := Some(Pc))]);
          Transition(s', [Send(id, Connected(sess.phoneInfo))] + Deliver(s, Some(sess.phone), PcConnected))
  }

  /**
   * `s'` has the clients and sockets of `s`, and every socket's record is as it
   * was except that socket `id` may have a new role and session code.
   */
  predicate OnlySenderRelabelled(s: State, s': State, id: ConnId)
  {
    && s'.clients == s.clients
    && s'.conns.Keys == s.conns.Keys
    && (forall x :: x in s.conns ==>
          s'.conns[x] == if x == id then s.conns[x].(role := s'.conns[x].role, sessionCode := s'.conns[x].sessionCode)
                         else s.conns[x])
  }

  /**
   * The command, event and default branches: the parsed message goes, as it
   * was parsed, to the session slot opposite the sender's role when the sender
   * names a live session and that slot holds an open socket. Nothing else.
   */
  function HandleRelay(s: State, id: ConnId, branch: RelayBranch, msg: Json): (t: Transition)
    requires id in s.conns
    ensures t.state == s
    ensures SessionOf(s, id).None? ==> t.outs == []
    ensures SessionOf(s, id).Some? ==>
      t.outs == Deliver(s, RelayTarget(branch, SessionOf(s, id).value, s.conns[id].role), Relayed(msg))
  {
    match SessionOf(s, id)
    case None => Transition(s, [])
    case Some(sess) => Transition(s, Deliver(s, RelayTarget(branch, sess, s.conns[id].role), Relayed(msg)))
  }

  /**
   * A text frame. Text `JSON.parse` rejects gets one error reply; so does the
   * text `null` (see the as-written model for what server.js does with it).
   * Otherwise the declared type picks the branch.
   */
  function HandleText(s: State, id: ConnId, parsed: Option<Json>, now: int, draws: seq<Draw>): (r: Outcome)
    requires id in s.conns
    ensures parsed.None? || parsed == Some(JNull) ==>
      r == Next(Transition(s, [Send(id, ErrorReply(INVALID_FORMAT))]))
    ensures r.Stalled? <==>
      && parsed.Some? && parsed.value != JNull
      && Classify(TypeName(parsed.value)) == Register
      && FirstFreshDraw(s.sessions.Keys, draws).None?
    ensures parsed.Some? && parsed.value != JNull && Classify(TypeName(parsed.value)) == Ping ==>
      r == Next(Transition(s, [Send(id, Pong(now))]))
    ensures r.Next? ==> OnlySenderRelabelled(s, r.t.state, id)
  {
    match parsed
    case None => Next(Transition(s, [Send(id, ErrorReply(INVALID_FORMAT))]))
    case Some(msg) =>
      if msg == JNull then Next(Transition(s, [Send(id, ErrorReply(INVALID_FORMAT))]))
      else Dispatch(s, id, msg, now, draws)
  }

  /**
   * `switch (msg.type)` for a parsed, non-null message. Only registration can
   * fail to finish. The relay branches and `ping` leave the state as it was;
   * registration and `pc_connect` touch, besides the sessions, only the
   * sender's role and session code.
   */
  function Dispatch(s: State, id: ConnId, msg: Json, now: int, draws: seq<Draw>): (r: Outcome)
    requires id in s.conns
    ensures r.Stalled? <==> Classify(TypeName(msg)) == Register && FirstFreshDraw(s.sessions.Keys, draws).None?
    ensures Classify(TypeName(msg)) in {Command, Event, Ping, Forward} ==> r.Next? && r.t.state == s
    ensures r.Next? ==> OnlySenderRelabelled(s, r.t.state, id)
  {
    match Classify(TypeName(msg))
    case Register =>
      (match FirstFreshDraw(s.sessions.Keys, draws)
       case None => Stalled
       case Some(i) => Next(HandleRegister(s, id, msg, now, CodeOf(draws[i]))))
    case Connect => Next(HandleConnect(s, id, msg))
    case Command => Next(HandleRelay(s, id, CommandRelay, msg))
    case Event => Next(HandleRelay(s, id, EventRelay, msg))
    case Ping => Next(Transition(s, [Send(id, Pong(now))]))
    case Forward => Next(HandleRelay(s, id, DefaultRelay, msg))
  }

  /**
   * The `close` handler (the socket is already CLOSED when it runs). With a live
   * session, the opposite slot, if open, is told which role left; a departing
   * phone deletes the session, any other departing socket only empties the pc
   * slot. The slot is not compared with the departing socket, and the pc of a
   * deleted session is not closed. Without a live session nothing else happens.
   */
  function HandleClose(s: State, id: ConnId): (t: Transition)
    requires id in s.conns
    ensures t.state.conns == s.conns[id := s.conns[id].(ready := Closed)]
    ensures t.state.clients == Without(s.clients, id)
    ensures SessionOf(s, id).None? ==> t.state.sessions == s.sessions && t.state.sessionOrder == s.sessionOrder && t.outs == []
    ensures SessionOf(s, id).Some? ==>
      var code := s.conns[id].sessionCode.value;
      var sess := s.sessions[code];
      && t.outs == Deliver(t.state, OppositeOf(sess, s.conns[id].role), PeerDisconnected(s.conns[id].role))
      && (s.conns[id].role == Some(Phone) ==>
            t.state.sessions == s.sessions - {code} && t.state.sessionOrder == Without(s.sessionOrder, code))
      && (s.conns[id].role != Some(Phone) ==>
            t.state.sessions == s.sessions[code := sess.(pc := None)] && t.state.sessionOrder == s.sessionOrder)
  {
    var c := s.conns[id];
    var s0 := s.(conns := s.conns[id := c.(ready := Closed)], clients := Without(s.clients, id));
    match SessionOf(s, id)
    case None => Transition(s0, [])
    case Some(sess) =>
      var code := c.sessionCode.value;
      var outs := Deliver(s0, OppositeOf(sess, c.role), PeerDisconnected(c.role));
      if c.role == Some(Phone) then
        Transition(s0.(sessions := s.sessions - {code}, sessionOrder := Without(s.sessionOrder, code)), outs)
      else
        Transition(s0.(sessions := s.sessions[code := sess.(pc := None)]), outs)
  }

  /** `terminate()`: an open socket starts closing; the `close` event follows later. */
  function Terminated(c: Conn): (c': Conn)
    ensures c'.ready != Open
    ensures c'.ready == Closed <==> c.ready == Closed
    ensures c'.role == c.role && c'.sessionCode == c.sessionCode && c'.isAlive == c.isAlive
  {
    if c.ready == Open then c.(ready := Closing) else c
  }

  /** What one heartbeat does to one client: terminate it if it missed the last probe, else probe it. */
  function Probe(c: Conn): (c': Conn)
    ensures c'.role == c.role && c'.sessionCode == c.sessionCode
    ensures c'.ready == Closed <==> c.ready == Closed
    ensures !c'.isAlive
    ensures c'.ready == Open <==> c.ready == Open && c.isAlive
  {
    if !c.isAlive then Terminated(c) else c.(isAlive := false)
  }

  function ProbeOut(id: ConnId, c: Conn): Out
  {
    if !c.isAlive then Terminate(id) else PingFrame(id)
  }

  /**
   * The heartbeat's `forEach` over the clients `ids`, in order. Every listed
   * client is probed exactly once, in list order, and no other socket changes.
   */
  function HeartbeatOver(conns: map<ConnId, Conn>, ids: seq<ConnId>): (r: (map<ConnId, Conn>, seq<Out>))
    requires NoDups(ids)
    requires forall id :: id in ids ==> id in conns
    ensures r.0.Keys == conns.Keys
    ensures forall id :: id in conns ==> r.0[id] == if id in ids then Probe(conns[id]) else conns[id]
    ensures |r.1| == |ids|
    ensures forall k :: 0 <= k < |ids| ==> r.1[k] == ProbeOut(ids[k], conns[ids[k]])
  {
    if |ids| == 0 then (conns, [])
    else
      var id := ids[0];
      assert NoDups(ids[1..]) by {
        forall i, j | 0 <= i < j < |ids[1..]| ensures ids[1..][i] != ids[1..][j] {
          assert ids[1..][i] == ids[i + 1] && ids[1..][j] == ids[j + 1];
        }
      }
      assert id !in ids[1..] by {
        forall k | 0 <= k < |ids[1..]| ensures ids[1..][k] != id {
          assert ids[1..][k] == ids[k + 1];
        }
      }
      var rest := HeartbeatOver(conns[id := Probe(conns[id])], ids[1..]);
      (rest.0, [ProbeOut(id, conns[id])] + rest.1)
  }

  /** `now - session.created > SESSION_TIMEOUT` (strictly older than the timeout). */
  predicate Expired(sess: Session, now: int)
  {
    now - sess.created > SESSION_TIMEOUT
  }

  /** A socket the cleanup sweep over `codes` terminates: the phone or pc of one of their expired sessions. */
  ghost predicate Swept(sessions: map<string, Session>, codes: seq<string>, now: int, id: ConnId)
  {
    exists code :: code in codes && code in sessions && Expired(sessions[code], now)
      && (sessions[code].phone == id || sessions[code].pc == Some(id))
  }

  /** The socket `id`, if known, moved from OPEN to CLOSING as `terminate()` or a close handshake does. */
  function TerminateIn(conns: map<ConnId, Conn>, id: ConnId): map<ConnId, Conn>
  {
    if id in conns then conns[id := Terminated(conns[id])] else conns
  }

  /**
   * The cleanup sweep's `for ... of` over the session keys `codes`, in order:
   * an expired session has its phone and pc terminated and its entry deleted.
   */
  function SweepOver(s: State, codes: seq<string>, now: int): (t: Transition)
    ensures t.state.clients == s.clients
    ensures t.state.conns.Keys == s.conns.Keys
    decreases |codes|
  {
    if |codes| == 0 then Transition(s, [])
    else
      var code := codes[0];
      if code in s.sessions && Expired(s.sessions[code], now) then
        var sess := s.sessions[code];
        var rest := SweepOver(SweepOne(s, code), codes[1..], now);
        Transition(rest.state, SweepOuts(sess) + rest.outs)
      else
        SweepOver(s, codes[1..], now)
  }

  /** The state after one expired session `code` is swept. */
  function SweepOne(s: State, code: string): State
    requires code in s.sessions
  {
    var sess := s.sessions[code];
    var conns1 := TerminateIn(s.conns, sess.phone);
    var conns2 := if sess.pc.Some? then TerminateIn(conns1, sess.pc.value) else conns1;
    s.(sessions := s.sessions - {code}, sessionOrder := Without(s.sessionOrder, code), conns := conns2)
  }

  /** `session.phone.terminate()` then, if there is one, `session.pc.terminate()`. */
  function SweepOuts(sess: Session): seq<Out>
  {
    [Terminate(sess.phone)] + (if sess.pc.Some? then [Terminate(sess.pc.value)] else [])
  }

  /** The sweep removes exactly the sessions strictly older than the timeout and leaves the others untouched. */
  lemma {:induction false} SweepSessions(s: State, codes: seq<string>, now: int)
    ensures var t := SweepOver(s, codes, now);
      && (forall c :: c in t.state.sessions <==> c in s.sessions && !(c in codes && Expired(s.sessions[c], now)))
      && (forall c :: c in t.state.sessions ==> t.state.sessions[c] == s.sessions[c])
    decreases |codes|
  {
    if |codes| > 0 {
      var code := codes[0];
      if code in s.sessions && Expired(s.sessions[code], now) {
        SweepSessions(SweepOne(s, code), codes[1..], now);
      } else {
        SweepSessions(s, codes[1..], now);
      }
      assert forall c :: c in codes <==> c == code || c in codes[1..];
    }
  }

  /** The insertion order loses exactly the swept keys and stays duplicate-free. */
  lemma {:induction false} SweepOrder(s: State, codes: seq<string>, now: int)
    requires NoDups(s.sessionOrder)
    ensures var t := SweepOver(s, codes, now);
      && NoDups(t.state.sessionOrder)
      && (forall c :: c in t.state.sessionOrder <==>
            c in s.sessionOrder && !(c in codes && c in s.sessions && Expired(s.sessions[c], now)))
    decreases |codes|
  {
    if |codes| > 0 {
      var code := codes[0];
      if code in s.sessions && Expired(s.sessions[code], now) {
        SweepOrder(SweepOne(s, code), codes[1..], now);
      } else {
        SweepOrder(s, codes[1..], now);
      }
      assert forall c :: c in codes <==> c == code || c in codes[1..];
    }
  }

  /** Exactly the phone and pc sockets of the swept sessions are terminated; no other socket changes. */
  lemma {:induction false} SweepConns(s: State, codes: seq<string>, now: int)
    ensures var t := SweepOver(s, codes, now);
      forall id :: id in s.conns ==>
        t.state.conns[id] == if Swept(s.sessions, codes, now, id) then Terminated(s.conns[id]) else s.conns[id]
    decreases |codes|
  {
    if |codes| > 0 {
      var code := codes[0];
      if code in s.sessions && Expired(s.sessions[code], now) {
        var s1 := SweepOne(s, code);
        SweepConns(s1, codes[1..], now);
        SweptStep(s.sessions, code, codes[1..], now);
        assert [code] + codes[1..] == codes;
      } else {
        SweepConns(s, codes[1..], now);
        SweptSkip(s.sessions, code, codes[1..], now);
        assert [code] + codes[1..] == codes;
      }
    }
  }

  /** The sweep's only socket operations are terminations, and it issues one for every swept socket. */
  lemma {:induction false} SweepTerminates(s: State, codes: seq<string>, now: int)
    ensures var t := SweepOver(s, codes, now);
      && (forall o :: o in t.outs ==> o.Terminate? && Swept(s.sessions, codes, now, o.to))
      && (forall id :: Swept(s.sessions, codes, now, id) ==> Terminate(id) in t.outs)
    decreases |codes|
  {
    if |codes| > 0 {
      var code := codes[0];
      if code in s.sessions && Expired(s.sessions[code], now) {
        SweepTerminates(SweepOne(s, code), codes[1..], now);
        SweptStep(s.sessions, code, codes[1..], now);
        assert [code] + codes[1..] == codes;
      } else {
        SweepTerminates(s, codes[1..], now);
        SweptSkip(s.sessions, code, codes[1..], now);
        assert [code] + codes[1..] == codes;
      }
    }
  }

  /** One removed session: what the rest of the sweep terminates plus its own two slots. */
  lemma SweptStep(sessions: map<string, Session>, code: string, tail: seq<string>, now: int)
    requires code in sessions && Expired(sessions[code], now)
    ensures forall id :: Swept(sessions, [code] + tail, now, id) <==>
      Swept(sessions - {code}, tail, now, id) || sessions[code].phone == id || sessions[code].pc == Some(id)
  {
    var s1 := sessions - {code};
    forall id | Swept(sessions, [code] + tail, now, id)
      ensures Swept(s1, tail, now, id) || sessions[code].phone == id || sessions[code].pc == Some(id)
    {
      var c :| c in [code] + tail && c in sessions && Expired(sessions[c], now)
        && (sessions[c].phone == id || sessions[c].pc == Some(id));
      if c != code {
        assert c in tail && c in s1;
      }
    }
    forall id | sessions[code].phone == id || sessions[code].pc == Some(id)
      ensures Swept(sessions, [code] + tail, now, id)
    {
      assert code in [code] + tail;
    }
    forall id | Swept(s1, tail, now, id)
      ensures Swept(sessions, [code] + tail, now, id)
    {
      var c :| c in tail && c in s1 && Expired(s1[c], now)
        && (s1[c].phone == id || s1[c].pc == Some(id));
      assert c in [code] + tail;
    }
  }

  /** A kept session adds nothing to what the sweep terminates. */
  lemma SweptSkip(sessions: map<string, Session>, code: string, tail: seq<string>, now: int)
    requires !(code in sessions && Expired(sessions[code], now))
    ensures forall id :: Swept(sessions, [code] + tail, now, id) <==> Swept(sessions, tail, now, id)
  {
    forall id | Swept(sessions, [code] + tail, now, id) ensures Swept(sessions, tail, now, id) {
      var c :| c in [code] + tail && c in sessions && Expired(sessions[c], now)
        && (sessions[c].phone == id || sessions[c].pc == Some(id));
      assert c in tail;
    }
    forall id | Swept(sessions, tail, now, id) ensures Swept(sessions, [code] + tail, now, id) {
      var c :| c in tail && c in sessions && Expired(sessions[c], now)
        && (sessions[c].phone == id || sessions[c].pc == Some(id));
      assert c in [code] + tail;
    }
  }

  /** What the heartbeat needs of a state: `wss.clients` lists known sockets, each once. */
  predicate ClientsKnown(s: State)
  {
    NoDups(s.clients) && forall id :: id in s.clients ==> id in s.conns
  }

  /**
   * One run of handler code for one event. Only a registration can leave the
   * handler unfinished; every frame from a socket that has already emitted
   * `close` is ignored, and frames from any other socket, CLOSING ones
   * included, reach the `message` listener; only a new connection adds a
   * socket; sessions change only on messages, `close` and the cleanup tick.
   */
  function Step(s: State, e: Event): (r: Outcome)
    requires ClientsKnown(s)
    ensures r.Stalled? ==>
      && e.Message? && Listening(s, e.id) && e.frame.Text? && e.frame.parsed.Some?
      && Classify(TypeName(e.frame.parsed.value)) == Register
    ensures e.Message? && !Listening(s, e.id) ==> r == Next(Transition(s, []))
    ensures r.Next? ==> r.t.state.conns.Keys == s.conns.Keys + (if e.Connection? then {e.id} else {})
    ensures r.Next? && (e.Connection? || e.PongFrame? || e.CloseHandshake? || e.HeartbeatTick?) ==>
      r.t.state.sessions == s.sessions && r.t.state.sessionOrder == s.sessionOrder
  {
    match e
    case Connection(id) =>
      if id in s.conns then Next(Transition(s, []))
      else Next(Transition(s.(conns := s.conns[id := Conn(Open, None, None, true)], clients := s.clients + [id]), []))
    case Message(id, frame, now, draws) =>
      if !Listening(s, id) then Next(Transition(s, []))
      else
        (match frame
         case Binary(bytes) => Next(HandleBinary(s, id, bytes))
         case Text(parsed) => HandleText(s, id, parsed, now, draws))
    case PongFrame(id) =>
      if id in s.conns then Next(Transition(s.(conns := s.conns[id := s.conns[id].(isAlive := true)]), []))
      else Next(Transition(s, []))
    case CloseHandshake(id) => Next(Transition(s.(conns := TerminateIn(s.conns, id)), []))
    case Close(id) =>
      if id in s.conns && s.conns[id].ready != Closed then Next(HandleClose(s, id))
      else Next(Transition(s, []))
    case HeartbeatTick =>
      var r := HeartbeatOver(s.conns, s.clients);
      Next(Transition(s.(conns := r.0), r.1))
    case CleanupTick(now) => Next(SweepOver(s, s.sessionOrder, now))
  }

  /** `/api/status`: `activeSessions` and `connectedClients`. */
  function Status(s: State): (r: (nat, nat))
    requires Valid(s)
    ensures r.0 == |s.sessions|
    ensures r.1 == |set id | id in s.conns && s.conns[id].ready != Closed|
  {
    DistinctCount(s.clients);
    assert Elems(s.clients) == set id | id in s.conns && s.conns[id].ready != Closed;
    (|s.sessions|, |s.clients|)
  }
}

=== FILE: codes.dfy ===
/**
 * Pairing codes: `crypto.randomInt(100000, 999999).toString()`, drawn again
 * until the string is not a live session key.
 */
module Codes {
  import opened Optional

  /** Inclusive lower bound passed to `crypto.randomInt`. */
  const CODE_LOW: int := 100000
  /** Upper bound passed to `crypto.randomInt`; it is exclusive, so 999999 is never drawn. */
  const CODE_HIGH: int := 999999

  /** One value returned by `crypto.randomInt(CODE_LOW, CODE_HIGH)`. */
  type Draw = n: int | CODE_LOW <= n < CODE_HIGH witness CODE_LOW

  predicate IsDigit(ch: char)
  {
    '0' <= ch <= '9'
  }

  predicate AllDigits(s: string)
  {
    forall i :: 0 <= i < |s| ==> IsDigit(s[i])
  }

  function DigitChar(d: nat): (ch: char)
    requires d < 10
    ensures IsDigit(ch)
    ensures ch as int - '0' as int == d
  {
    ('0' as int + d) as char
  }

  function Pow10(k: nat): (p: nat)
    ensures p >= 1
  {
    if k == 0 then 1 else 10 * Pow10(k - 1)
  }

  /** `Number.prototype.toString()` of a non-negative integer: base ten, no leading zero. */
  function Decimal(n: nat): (s: string)
    ensures |s| >= 1 && AllDigits(s)
    ensures s[0] == '0' <==> n == 0
  {
    if n < 10 then [DigitChar(n)] else Decimal(n / 10) + [DigitChar(n % 10)]
  }

  /** The number a string of decimal digits denotes. */
  function ValueOf(s: string): nat
    requires AllDigits(s)
  {
    if |s| == 0 then 0 else ValueOf(s[..|s| - 1]) * 10 + (s[|s| - 1] as int - '0' as int)
  }

  /** Reading back what `Decimal` wrote gives the number. */
  lemma {:induction false} ValueOfDecimal(n: nat)
    ensures ValueOf(Decimal(n)) == n
  {
    if n >= 10 {
      var s := Decimal(n);
      assert s[..|s| - 1] == Decimal(n / 10);
      ValueOfDecimal(n / 10);
    }
  }

  /** A number with k+1 digits is written with k+1 characters. */
  lemma {:induction false} DecimalLength(n: nat, k: nat)
    requires Pow10(k) <= n < Pow10(k + 1)
    ensures |Decimal(n)| == k + 1
  {
    if k > 0 {
      DecimalLength(n / 10, k - 1);
    }
  }

  /** Writing the value of a canonical digit string (no leading zero) gives the string back. */
  lemma {:induction false} DecimalOfValue(s: string)
    requires |s| >= 1 && AllDigits(s) && (s[0] == '0' ==> |s| == 1)
    ensures Decimal(ValueOf(s)) == s
  {
    if |s| > 1 {
      var init := s[..|s| - 1];
      DecimalOfValue(init);
      PositiveValue(init);
      var v := ValueOf(s);
      assert v / 10 == ValueOf(init) && v % 10 == s[|s| - 1] as int - '0' as int;
      assert s == init + [s[|s| - 1]];
    } else {
      assert s[..|s| - 1] == [];
      assert IsDigit(s[0]);
      assert ValueOf(s) == s[0] as int - '0' as int;
    }
  }

  /** A digit string that does not start with zero denotes a positive number. */
  lemma {:induction false} PositiveValue(s: string)
    requires |s| >= 1 && AllDigits(s) && s[0] != '0'
    ensures ValueOf(s) > 0
  {
    if |s| > 1 {
      PositiveValue(s[..|s| - 1]);
    }
  }

  /** A key `generateCode` can produce: six digits denoting a value in [CODE_LOW, CODE_HIGH). */
  predicate IsPairingCode(c: string)
  {
    |c| == 6 && AllDigits(c) && CODE_LOW <= ValueOf(c) < CODE_HIGH
  }

  /** The session key made from one draw. */
  function CodeOf(d: Draw): (c: string)
    ensures IsPairingCode(c) && c[0] != '0'
    ensures ValueOf(c) == d
  {
    ValueOfDecimal(d);
    DecimalLength(d, 5);
    Decimal(d)
  }

  /** Different draws give different keys, and every pairing code is made from exactly one draw. */
  lemma CodeOfBijective(d1: Draw, d2: Draw, c: string)
    ensures CodeOf(d1) == CodeOf(d2) <==> d1 == d2
    ensures IsPairingCode(c) ==> exists d: Draw :: CodeOf(d) == c
  {
    if IsPairingCode(c) {
      PositiveDigitsLead(c);
      DecimalOfValue(c);
      var d: Draw := ValueOf(c);
      assert CodeOf(d) == c;
    }
  }

  /** A six-digit string of value at least 100000 does not start with zero. */
  lemma PositiveDigitsLead(c: string)
    requires IsPairingCode(c)
    ensures c[0] != '0'
  {
    if c[0] == '0' {
      assert Pow10(5) == CODE_LOW;
      LeadingZeroBound(c);
    }
  }

  /** A digit string that starts with zero is worth less than its length suggests. */
  lemma {:induction false} LeadingZeroBound(s: string)
    requires |s| >= 1 && AllDigits(s) && s[0] == '0'
    ensures ValueOf(s) < Pow10(|s| - 1)
  {
    if |s| == 1 {
      assert s[..0] == [];
    } else {
      var init := s[..|s| - 1];
      LeadingZeroBound(init);
      var p := Pow10(|s| - 2);
      assert ValueOf(init) <= p - 1;
      assert ValueOf(init) * 10 <= p * 10 - 10;
    }
  }

  /**
   * The do-while loop of `generateCode` over a finite prefix of its draws: the
   * index of the first draw whose key is not live, or `None` when every draw
   * in the prefix collided (the loop has not exited yet).
   */
  function FirstFreshDraw(live: set<string>, draws: seq<Draw>): (r: Option<nat>)
    ensures r.Some? ==> r.value < |draws| && CodeOf(draws[r.value]) !in live
    ensures r.Some? ==> forall j :: 0 <= j < r.value ==> CodeOf(draws[j]) in live
    ensures r.None? <==> forall j :: 0 <= j < |draws| ==> CodeOf(draws[j]) in live
  {
    if |draws| == 0 then None
    else if CodeOf(draws[0]) !in live then Some(0)
    else
      match FirstFreshDraw(live, draws[1..])
      case None => None
      case Some(i) => Some(i + 1)
  }
}

=== FILE: invariants.dfy ===
/**
 * The broker's state invariant holds initially and after every event, so the
 * insertion orders always enumerate the live keys and clients exactly once and
 * every live key is a pairing code.
 */
module Invariants {
  import opened Optional
  import opened Seqs
  import opened Json
  import opened Codes
  import opened Protocol
  import opened Broker

  lemma InitialValid()
    ensures Valid(Initial)
  {
  }

  /** Every event that completes keeps the invariant. */
  lemma StepPreservesValid(s: State, e: Event)
    requires Valid(s)
    requires Step(s, e).Next?
    ensures Valid(Step(s, e).t.state)
  {
    match e
    case Connection(id) => ConnectionPreservesValid(s, id);
    case Message(id, frame, now, draws) => MessagePreservesValid(s, id, frame, now, draws);
    case PongFrame(id) => PongPreservesValid(s, id);
    case CloseHandshake(id) => CloseHandshakePreservesValid(s, id);
    case Close(id) => CloseEventPreservesValid(s, id);
    case HeartbeatTick => HeartbeatPreservesValid(s);
    case CleanupTick(now) => SweepPreservesValid(s, now);
  }

  lemma ConnectionPreservesValid(s: State, id: ConnId)
    requires Valid(s)
    ensures Valid(Step(s, Connection(id)).t.state)
  {
    if id !in s.conns {
      assert id !in s.clients;
      AppendFresh(s.clients, id);
    }
  }

  lemma MessagePreservesValid(s: State, id: ConnId, frame: Frame, now: int, draws: seq<Draw>)
    requires Valid(s)
    requires Step(s, Message(id, frame, now, draws)).Next?
    ensures Valid(Step(s, Message(id, frame, now, draws)).t.state)
  {
    if Listening(s, id) && frame.Text? {
      TextPreservesValid(s, id, frame.parsed, now, draws);
    }
  }

  lemma PongPreservesValid(s: State, id: ConnId)
    requires Valid(s)
    ensures Valid(Step(s, PongFrame(id)).t.state)
  {
  }

  lemma CloseHandshakePreservesValid(s: State, id: ConnId)
    requires Valid(s)
    ensures Valid(Step(s, CloseHandshake(id)).t.state)
  {
  }

  lemma CloseEventPreservesValid(s: State, id: ConnId)
    requires Valid(s)
    ensures Valid(Step(s, Close(id)).t.state)
  {
    if id in s.conns && s.conns[id].ready != Closed {
      ClosePreservesValid(s, id);
    }
  }

  lemma AppendFresh<T>(xs: seq<T>, x: T)
    requires NoDups(xs) && x !in xs
    ensures NoDups(xs + [x])
  {
    var ys := xs + [x];
    forall i, j | 0 <= i < j < |ys| ensures ys[i] != ys[j] {
      if j == |xs| {
        assert ys[i] == xs[i];
      } else {
        assert ys[i] == xs[i] && ys[j] == xs[j];
      }
    }
  }

  lemma TextPreservesValid(s: State, id: ConnId, parsed: Option<Json>, now: int, draws: seq<Draw>)
    requires Valid(s) && Listening(s, id)
    requires HandleText(s, id, parsed, now, draws).Next?
    ensures Valid(HandleText(s, id, parsed, now, draws).t.state)
  {
    if parsed.Some? && parsed.value != JNull {
      var msg := parsed.value;
      assert HandleText(s, id, parsed, now, draws) == Dispatch(s, id, msg, now, draws);
      match Classify(TypeName(msg))
      case Register =>
        var i := FirstFreshDraw(s.sessions.Keys, draws).value;
        RegisterKeepsValid(s, id, msg, now, CodeOf(draws[i]));
      case Connect =>
        ConnectKeepsValid(s, id, msg);
      case Command =>
      case Event =>
      case Ping =>
      case Forward =>
    }
  }

  lemma RegisterKeepsValid(s: State, id: ConnId, msg: Json, now: int, code: string)
    requires Valid(s) && id in s.conns && code !in s.sessions && IsPairingCode(code)
    ensures Valid(HandleRegister(s, id, msg, now, code).state)
  {
    assert code !in s.sessionOrder;
    AppendFresh(s.sessionOrder, code);
  }

  lemma ConnectKeepsValid(s: State, id: ConnId, msg: Json)
    requires Valid(s) && id in s.conns
    ensures Valid(HandleConnect(s, id, msg).state)
  {
  }

  lemma ClosePreservesValid(s: State, id: ConnId)
    requires Valid(s) && id in s.conns && s.conns[id].ready != Closed
    ensures Valid(HandleClose(s, id).state)
  {
  }

  lemma HeartbeatPreservesValid(s: State)
    requires Valid(s)
    ensures Valid(Step(s, HeartbeatTick).t.state)
  {
    var r := HeartbeatOver(s.conns, s.clients);
    var s' := s.(conns := r.0);
    assert Step(s, HeartbeatTick).t.state == s';
    forall id | id in s.conns
      ensures r.0[id].role == s.conns[id].role && r.0[id].sessionCode == s.conns[id].sessionCode
      ensures r.0[id].ready == Closed <==> s.conns[id].ready == Closed
    {
    }
  }

  lemma SweepPreservesValid(s: State, now: int)
    requires Valid(s)
    ensures Valid(Step(s, CleanupTick(now)).t.state)
  {
    assert Step(s, CleanupTick(now)) == Next(SweepOver(s, s.sessionOrder, now));
    SweepKeepsValid(s, now);
  }

  lemma SweepKeepsValid(s: State, now: int)
    requires Valid(s)
    ensures Valid(SweepOver(s, s.sessionOrder, now).state)
  {
    var s' := SweepOver(s, s.sessionOrder, now).state;
    assert s'.sessions.Keys <= s.sessions.Keys && forall c :: c in s'.sessions ==> s'.sessions[c] == s.sessions[c] by {
      SweepSessions(s, s.sessionOrder, now);
    }
    assert NoDups(s'.sessionOrder) && forall c :: c in s'.sessionOrder <==> c in s'.sessions by {
      SweepSessions(s, s.sessionOrder, now);
      SweepOrder(s, s.sessionOrder, now);
    }
    assert s'.clients == s.clients && s'.conns.Keys == s.conns.Keys
      && forall id :: id in s.conns ==>
        && s'.conns[id].role == s.conns[id].role
        && s'.conns[id].sessionCode == s.conns[id].sessionCode
        && (s'.conns[id].ready == Closed <==> s.conns[id].ready == Closed)
    by {
      SweepConns(s, s.sessionOrder, now);
    }
  }

  /** How far a socket has got towards closing. */
  function Progress(r: ReadyState): nat
  {
    match r
    case Open => 0
    case Closing => 1
    case Closed => 2
  }

  /**
   * No event reopens a socket or forgets one: OPEN may become CLOSING or
   * CLOSED, CLOSING may become CLOSED, and CLOSED is final.
   */
  lemma ReadyStateNeverRegresses(s: State, e: Event)
    requires ClientsKnown(s)
    requires Step(s, e).Next?
    ensures forall id :: id in s.conns ==>
      id in Step(s, e).t.state.conns && Progress(s.conns[id].ready) <= Progress(Step(s, e).t.state.conns[id].ready)
  {
    var s' := Step(s, e).t.state;
    match e
    case Connection(id) =>
    case Message(id, frame, now, draws) =>
    case PongFrame(id) =>
    case CloseHandshake(id) =>
    case Close(id) =>
    case HeartbeatTick =>
      var r := HeartbeatOver(s.conns, s.clients);
      assert s' == s.(conns := r.0);
    case CleanupTick(now) =>
      SweepConns(s, s.sessionOrder, now);
  }
}

=== FILE: json.dfy ===
/**
 * The value `JSON.parse` hands the message handler, and the JavaScript
 * operations the broker performs on it: property reads, truthiness and `x || {}`.
 * Numbers are kept as the exact reals their literals denote, not as the doubles
 * `JSON.parse` rounds them to.
 */
module Json {
  import opened Optional

  datatype Json =
    | JNull
    | JBool(b: bool)
    | JNum(n: real)
    | JStr(s: string)
    | JArr(items: seq<Json>)
    | JObj(fields: map<string, Json>)

  /** JavaScript truthiness of a parsed value. */
  predicate Truthy(v: Json)
  {
    match v
    case JNull => false
    case JBool(b) => b
    case JNum(n) => n != 0.0
    case JStr(s) => s != ""
    case JArr(_) => true
    case JObj(_) => true
  }

  /** `v.key` for a non-null parsed value; `None` stands for `undefined`. */
  function Member(v: Json, key: string): (r: Option<Json>)
    ensures r.Some? <==> v.JObj? && key in v.fields
    ensures r.Some? ==> r.value == v.fields[key]
  {
    if v.JObj? && key in v.fields then Some(v.fields[key]) else None
  }

  /**
   * The property read `v.key` exactly as JavaScript performs it on a parsed
   * value: `None` when the read throws, which is a TypeError because `null` has
   * no properties; otherwise `Some` of the property, `None` inside standing for
   * `undefined`. The keys the broker reads (`type`, `code`, `deviceInfo`) name
   * no built-in property of booleans, numbers, strings or arrays.
   */
  function ReadProp(v: Json, key: string): (r: Option<Option<Json>>)
    ensures r.None? <==> v == JNull
    ensures r.Some? ==> r.value == Member(v, key)
  {
    match v
    case JNull => None
    case JObj(fields) => Some(if key in fields then Some(fields[key]) else None)
    case _ => Some(None)
  }

  /** The empty object literal `{}`. */
  const EmptyObject: Json := JObj(map[])

  /** `v || {}`: the value itself when it is truthy, a fresh empty object otherwise. */
  function OrEmptyObject(v: Option<Json>): (r: Json)
    ensures Truthy(r)
    ensures v.Some? && Truthy(v.value) ==> r == v.value
    ensures !(v.Some? && Truthy(v.value)) ==> r == EmptyObject
  {
    match v
    case Some(x) => if Truthy(x) then x else EmptyObject
    case None => EmptyObject
  }

  /** `msg.type` when it is a string; any other `type` never equals a case label of the dispatch. */
  function TypeName(msg: Json): (r: Option<string>)
    ensures r.Some? <==> Member(msg, "type").Some? && Member(msg, "type").value.JStr?
    ensures r.Some? ==> Member(msg, "type") == Some(JStr(r.value))
  {
    match Member(msg, "type")
    case Some(JStr(t)) => Some(t)
    case _ => None
  }
}

=== FILE: optional.dfy ===
/** The optional value used wherever the broker holds a JavaScript `null`/`undefined`. */
module Optional {

  datatype Option<+T> = None | Some(value: T)
}

=== FILE: properties.dfy ===
/**
 * What the broker promises across events: pairing end to end, what a phone or
 * pc departure leaves behind, heartbeat liveness and the expiry sweep.
 */
module Properties {
  import opened Optional
  import opened Json
  import opened Codes
  import opened Protocol
  import opened Broker
  import opened Invariants

  /** `{type: 'phone_register', deviceInfo: info}`. */
  function RegisterRequest(info: Json): Json
  {
    JObj(map["type" := JStr(PHONE_REGISTER), "deviceInfo" := info])
  }

  /** `{type: 'pc_connect', code: code}`. */
  function ConnectRequest(code: string): Json
  {
    JObj(map["type" := JStr(PC_CONNECT), "code" := JStr(code)])
  }

  /**
   * `phone_register`: the loop exits exactly when some draw is not a live key;
   * then exactly one session is added, under the first such draw's code, which
   * is a pairing code no live session had; the sender is its phone and is sent
   * that code once; no other session changes.
   */
  lemma RegisterAddsOneSession(s: State, id: ConnId, msg: Json, now: int, draws: seq<Draw>)
    requires ClientsKnown(s) && Listening(s, id)
    requires msg != JNull && Classify(TypeName(msg)) == Register
    ensures var r := Step(s, Message(id, Text(Some(msg)), now, draws));
      r.Stalled? <==> forall j :: 0 <= j < |draws| ==> CodeOf(draws[j]) in s.sessions
    ensures var r := Step(s, Message(id, Text(Some(msg)), now, draws));
      var i := FirstFreshDraw(s.sessions.Keys, draws);
      i.Some? ==>
        var code := CodeOf(draws[i.value]);
        && IsPairingCode(code) && code !in s.sessions
        && r.Next?
        && r.t.state.sessions.Keys == s.sessions.Keys + {code}
        && r.t.state.sessions[code] == Session(id, None, now, OrEmptyObject(Member(msg, "deviceInfo")))
        && (forall c :: c in s.sessions ==> r.t.state.sessions[c] == s.sessions[c])
        && r.t.state.conns[id].role == Some(Phone)
        && r.t.state.conns[id].sessionCode == Some(code)
        && r.t.outs == [Send(id, Registered(code))]
  {
    var e := Message(id, Text(Some(msg)), now, draws);
    assert Step(s, e) == HandleText(s, id, Some(msg), now, draws);
    assert HandleText(s, id, Some(msg), now, draws) == Dispatch(s, id, msg, now, draws);
    var i := FirstFreshDraw(s.sessions.Keys, draws);
    if i.Some? {
      var code := CodeOf(draws[i.value]);
      assert Dispatch(s, id, msg, now, draws) == Next(HandleRegister(s, id, msg, now, code));
    }
  }

  /** A parsed non-null text frame from a socket that has not closed goes to the dispatch. */
  lemma StepText(s: State, id: ConnId, msg: Json, now: int, draws: seq<Draw>)
    requires ClientsKnown(s) && Listening(s, id) && msg != JNull
    ensures Step(s, Message(id, Text(Some(msg)), now, draws)) == Dispatch(s, id, msg, now, draws)
  {
  }

  /** Socket `p` is the open phone and `q` the open pc of the live session `code`. */
  ghost predicate Paired(s: State, code: string, p: ConnId, q: ConnId)
  {
    && code in s.sessions && s.sessions[code].phone == p && s.sessions[code].pc == Some(q)
    && IsOpen(s, p) && s.conns[p].role == Some(Phone) && s.conns[p].sessionCode == Some(code)
    && IsOpen(s, q) && s.conns[q].role == Some(Pc) && s.conns[q].sessionCode == Some(code)
  }

  /**
   * A phone registers and a second socket pairs with the code it was given:
   * the phone is sent the code, the pc is sent the phone's info, the phone is
   * told the pc arrived, and the two are paired.
   */
  lemma RegisterThenConnect(s: State, p: ConnId, q: ConnId, info: Json, now: int, draws: seq<Draw>)
    requires Valid(s) && IsOpen(s, p) && IsOpen(s, q) && p != q
    requires FirstFreshDraw(s.sessions.Keys, draws).Some?
    ensures
      var code := CodeOf(draws[FirstFreshDraw(s.sessions.Keys, draws).value]);
      var r1 := Step(s, Message(p, Text(Some(RegisterRequest(info))), now, draws));
      && r1.Next? && r1.t.outs == [Send(p, Registered(code))] && Valid(r1.t.state)
      && var r2 := Step(r1.t.state, Message(q, Text(Some(ConnectRequest(code))), now, []));
         && r2.Next? && Valid(r2.t.state)
         && r2.t.outs == [Send(q, Connected(OrEmptyObject(Some(info)))), Send(p, PcConnected)]
         && Paired(r2.t.state, code, p, q)
  {
    var reg := RegisterRequest(info);
    assert TypeName(reg) == Some(PHONE_REGISTER);
    assert Member(reg, "deviceInfo") == Some(info);
    var code := CodeOf(draws[FirstFreshDraw(s.sessions.Keys, draws).value]);
    RegisterAddsOneSession(s, p, reg, now, draws);
    StepPreservesValid(s, Message(p, Text(Some(reg)), now, draws));
    var s1 := Step(s, Message(p, Text(Some(reg)), now, draws)).t.state;
    ConnectToFreshSession(s1, p, q, code, now);
  }

  /** `pc_connect` for a session whose phone is open and whose pc slot is empty. */
  lemma ConnectToFreshSession(s: State, p: ConnId, q: ConnId, code: string, now: int)
    requires Valid(s) && IsOpen(s, p) && IsOpen(s, q) && p != q
    requires code in s.sessions && s.sessions[code].phone == p && s.sessions[code].pc.None?
    requires s.conns[p].role == Some(Phone) && s.conns[p].sessionCode == Some(code)
    ensures var r := Step(s, Message(q, Text(Some(ConnectRequest(code))), now, []));
      && r.Next? && Valid(r.t.state)
      && r.t.outs == [Send(q, Connected(s.sessions[code].phoneInfo)), Send(p, PcConnected)]
      && Paired(r.t.state, code, p, q)
  {
    AttachStep(s, q, code, now);
    StepPreservesValid(s, Message(q, Text(Some(ConnectRequest(code))), now, []));
  }

  /**
   * Between paired sockets every relay branch delivers the parsed message
   * unchanged to the other socket and never back to the sender; binary frames
   * flow from the phone to the pc only.
   */
  lemma PairedRelay(s: State, code: string, p: ConnId, q: ConnId, msg: Json, bytes: seq<bv8>, now: int)
    requires ClientsKnown(s) && Paired(s, code, p, q) && p != q
    requires msg != JNull && Classify(TypeName(msg)) in {Command, Event, Forward}
    ensures Step(s, Message(q, Text(Some(msg)), now, [])) == Next(Transition(s, [Send(p, Relayed(msg))]))
    ensures Step(s, Message(p, Text(Some(msg)), now, [])) == Next(Transition(s, [Send(q, Relayed(msg))]))
    ensures Step(s, Message(p, Binary(bytes), now, [])) == Next(Transition(s, [Send(q, Raw(bytes))]))
    ensures Step(s, Message(q, Binary(bytes), now, [])) == Next(Transition(s, []))
  {
    StepText(s, q, msg, now, []);
    StepText(s, p, msg, now, []);
  }

  /**
   * A departing phone deletes its session: the pc, if open, is told the phone
   * left; the pc socket itself is left open with its stale session code, so its
   * relayed messages are dropped and the next `pc_connect` with the old code is
   * rejected, as long as no new session holds that code again.
   */
  lemma PhoneCloseInvalidatesCode(s: State, id: ConnId, q: ConnId, now: int, msg: Json)
    requires Valid(s) && id in s.conns && s.conns[id].ready != Closed
    requires s.conns[id].role == Some(Phone) && s.conns[id].sessionCode.Some?
    requires s.conns[id].sessionCode.value in s.sessions
    requires IsOpen(s, q) && q != id
    requires msg != JNull && Classify(TypeName(msg)) in {Command, Event, Forward}
    ensures
      var code := s.conns[id].sessionCode.value;
      var sess := s.sessions[code];
      var r := Step(s, Close(id));
      && r.Next? && Valid(r.t.state)
      && code !in r.t.state.sessions
      && r.t.outs == Deliver(r.t.state, sess.pc, PeerDisconnected(Some(Phone)))
      && (forall x :: x in s.conns && x != id ==> r.t.state.conns[x] == s.conns[x])
      && Step(r.t.state, Message(q, Text(Some(ConnectRequest(code))), now, []))
         == Next(Transition(r.t.state, [Send(q, ErrorReply(INVALID_CODE))]))
      && (s.conns[q].sessionCode == Some(code) ==>
            Step(r.t.state, Message(q, Text(Some(msg)), now, [])) == Next(Transition(r.t.state, [])))
  {
    var code := s.conns[id].sessionCode.value;
    StepClose(s, id);
    ClosePreservesValid(s, id);
    var s1 := HandleClose(s, id).state;
    assert code !in s1.sessions;
    assert IsOpen(s1, q);
    UnknownCodeRejected(s1, q, code, now);
    if s.conns[q].sessionCode == Some(code) {
      assert SessionOf(s1, q).None?;
      RelayWithoutSessionDropped(s1, q, msg, now);
    }
  }

  /**
   * A departed phone's code is only gone until `generateCode` draws it again.
   * A pc still holding that stale code then names the new session, and being a
   * pc its commands go to that session's phone, a socket it never paired with.
   */
  lemma StaleCodeReachesLaterPhone(s: State, p: ConnId, q: ConnId, info: Json, msg: Json, now: int, d: Draw)
    requires ClientsKnown(s) && IsOpen(s, p) && IsOpen(s, q) && p != q
    requires s.conns[q].role == Some(Pc) && s.conns[q].sessionCode == Some(CodeOf(d))
    requires CodeOf(d) !in s.sessions
    requires msg != JNull && Classify(TypeName(msg)) == Command
    ensures
      var r1 := Step(s, Message(p, Text(Some(RegisterRequest(info))), now, [d]));
      && r1.Next? && r1.t.outs == [Send(p, Registered(CodeOf(d)))]
      && ClientsKnown(r1.t.state)
      && Step(r1.t.state, Message(q, Text(Some(msg)), now, []))
         == Next(Transition(r1.t.state, [Send(p, Relayed(msg))]))
  {
    var code := CodeOf(d);
    var reg := RegisterRequest(info);
    assert TypeName(reg) == Some(PHONE_REGISTER);
    StepText(s, p, reg, now, [d]);
    assert FirstFreshDraw(s.sessions.Keys, [d]) == Some(0);
    var t := HandleRegister(s, p, reg, now, code);
    assert Step(s, Message(p, Text(Some(reg)), now, [d])) == Next(t);
    var s1 := t.state;
    assert s1.conns[q] == s.conns[q] && IsOpen(s1, p);
    assert SessionOf(s1, q) == Some(s1.sessions[code]);
    StepText(s1, q, msg, now, []);
  }

  /** `pc_connect` naming a code with no live session gets `Invalid code` and changes nothing. */
  lemma UnknownCodeRejected(s: State, q: ConnId, code: string, now: int)
    requires ClientsKnown(s) && Listening(s, q) && code !in s.sessions
    ensures Step(s, Message(q, Text(Some(ConnectRequest(code))), now, []))
      == Next(Transition(s, [Send(q, ErrorReply(INVALID_CODE))]))
  {
    var join := ConnectRequest(code);
    assert TypeName(join) == Some(PC_CONNECT);
    assert RequestedCode(join) == Some(code);
    StepText(s, q, join, now, []);
    assert Dispatch(s, q, join, now, []) == Next(HandleConnect(s, q, join));
  }

  /** A relayed message from a socket whose session code names no live session is dropped. */
  lemma RelayWithoutSessionDropped(s: State, q: ConnId, msg: Json, now: int)
    requires ClientsKnown(s) && Listening(s, q) && SessionOf(s, q).None?
    requires msg != JNull && Classify(TypeName(msg)) in {Command, Event, Forward}
    ensures Step(s, Message(q, Text(Some(msg)), now, [])) == Next(Transition(s, []))
  {
    StepText(s, q, msg, now, []);
  }

  /** The `close` event of a socket that has not closed yet runs the close handler. */
  lemma StepClose(s: State, id: ConnId)
    requires Valid(s) && id in s.conns && s.conns[id].ready != Closed
    ensures Step(s, Close(id)) == Next(HandleClose(s, id))
  {
  }

  /**
   * A departing pc only empties the pc slot: the session and its code survive,
   * the phone, if open, is told the pc left, and another socket can pair with
   * the same code afterwards.
   */
  lemma PcCloseFreesSlot(s: State, id: ConnId, q: ConnId, now: int)
    requires Valid(s) && id in s.conns && s.conns[id].ready != Closed
    requires s.conns[id].role == Some(Pc) && s.conns[id].sessionCode.Some?
    requires s.conns[id].sessionCode.value in s.sessions
    requires IsOpen(s, q) && q != id
    ensures
      var code := s.conns[id].sessionCode.value;
      var sess := s.sessions[code];
      var r := Step(s, Close(id));
      && r.Next? && Valid(r.t.state)
      && r.t.state.sessions == s.sessions[code := sess.(pc := None)]
      && r.t.outs == Deliver(r.t.state, Some(sess.phone), PeerDisconnected(Some(Pc)))
      && var r2 := Step(r.t.state, Message(q, Text(Some(ConnectRequest(code))), now, []));
         && r2.Next?
         && r2.t.state.sessions == s.sessions[code := sess.(pc := Some(q))]
         && r2.t.outs == [Send(q, Connected(sess.phoneInfo))] + Deliver(r.t.state, Some(sess.phone), PcConnected)
  {
    PcCloseStep(s, id);
    ReattachAfterPcClose(s, id, q, now);
  }

  /** The first half of `PcCloseFreesSlot`: the `close` event itself. */
  lemma PcCloseStep(s: State, id: ConnId)
    requires Valid(s) && id in s.conns && s.conns[id].ready != Closed
    requires s.conns[id].role == Some(Pc) && s.conns[id].sessionCode.Some?
    requires s.conns[id].sessionCode.value in s.sessions
    ensures
      var code := s.conns[id].sessionCode.value;
      var sess := s.sessions[code];
      var r := Step(s, Close(id));
      && r == Next(HandleClose(s, id)) && Valid(r.t.state)
      && r.t.state.sessions == s.sessions[code := sess.(pc := None)]
      && r.t.outs == Deliver(r.t.state, Some(sess.phone), PeerDisconnected(Some(Pc)))
  {
    StepClose(s, id);
    ClosePreservesValid(s, id);
    PcCloseEffect(s, id);
  }

  /** The second half of `PcCloseFreesSlot`: pairing with the freed code. */
  lemma ReattachAfterPcClose(s: State, id: ConnId, q: ConnId, now: int)
    requires ClientsKnown(s) && id in s.conns
    requires s.conns[id].role == Some(Pc) && s.conns[id].sessionCode.Some?
    requires s.conns[id].sessionCode.value in s.sessions
    requires IsOpen(s, q) && q != id
    ensures
      var code := s.conns[id].sessionCode.value;
      var sess := s.sessions[code];
      var t := HandleClose(s, id);
      ClientsKnown(t.state) &&
      var r2 := Step(t.state, Message(q, Text(Some(ConnectRequest(code))), now, []));
      && r2.Next?
      && r2.t.state.sessions == s.sessions[code := sess.(pc := Some(q))]
      && r2.t.outs == [Send(q, Connected(sess.phoneInfo))] + Deliver(t.state, Some(sess.phone), PcConnected)
  {
    PcCloseEffect(s, id);
    var code := s.conns[id].sessionCode.value;
    var sess := s.sessions[code];
    var s1 := HandleClose(s, id).state;
    assert IsOpen(s1, q);
    AttachToEmptiedSlot(s1, q, code, sess, now);
    assert s1.sessions[code := sess.(pc := Some(q))] == s.sessions[code := sess.(pc := Some(q))];
  }

  /** `pc_connect` for a session `sess` whose pc slot was just emptied. */
  lemma AttachToEmptiedSlot(s: State, q: ConnId, code: string, sess: Session, now: int)
    requires ClientsKnown(s) && IsOpen(s, q)
    requires code in s.sessions && s.sessions[code] == sess.(pc := None)
    ensures var r := Step(s, Message(q, Text(Some(ConnectRequest(code))), now, []));
      && r.Next?
      && r.t.state.sessions == s.sessions[code := sess.(pc := Some(q))]
      && r.t.outs == [Send(q, Connected(sess.phoneInfo))] + Deliver(s, Some(sess.phone), PcConnected)
  {
    AttachStep(s, q, code, now);
  }

  /** The close handler of a pc with a live session empties that session's pc slot and tells its phone. */
  lemma PcCloseEffect(s: State, id: ConnId)
    requires id in s.conns && s.conns[id].role == Some(Pc) && s.conns[id].sessionCode.Some?
    requires s.conns[id].sessionCode.value in s.sessions
    ensures var code := s.conns[id].sessionCode.value;
      var sess := s.sessions[code];
      var t := HandleClose(s, id);
      && t.state.sessions == s.sessions[code := sess.(pc := None)]
      && t.outs == Deliver(t.state, Some(sess.phone), PeerDisconnected(Some(Pc)))
      && (forall x :: x in s.conns && x != id ==> t.state.conns[x] == s.conns[x])
  {
    assert SessionOf(s, id).Some?;
  }

  /** `pc_connect` from an open socket for a live session whose pc slot is empty succeeds. */
  lemma AttachStep(s: State, q: ConnId, code: string, now: int)
    requires ClientsKnown(s) && Listening(s, q)
    requires code in s.sessions && s.sessions[code].pc.None?
    ensures var r := Step(s, Message(q, Text(Some(ConnectRequest(code))), now, []));
      var sess := s.sessions[code];
      && r.Next?
      && r.t.state.sessions == s.sessions[code := sess.(pc := Some(q))]
      && r.t.state.conns == s.conns[q := s.conns[q].(sessionCode := Some(code), role := Some(Pc))]
      && r.t.outs == [Send(q, Connected(sess.phoneInfo))] + Deliver(s, Some(sess.phone), PcConnected)
  {
    var join := ConnectRequest(code);
    assert TypeName(join) == Some(PC_CONNECT);
    assert RequestedCode(join) == Some(code);
    assert CanAttach(s, join);
    StepText(s, q, join, now, []);
    assert Dispatch(s, q, join, now, []) == Next(HandleConnect(s, q, join));
  }

  /** The `close` event runs the cleanup once: a second `close` for the same socket does nothing. */
  lemma CloseIsIdempotent(s: State, id: ConnId)
    requires Valid(s)
    ensures var r := Step(s, Close(id));
      && r.Next? && Valid(r.t.state)
      && Step(r.t.state, Close(id)) == Next(Transition(r.t.state, []))
  {
    StepPreservesValid(s, Close(id));
  }

  /** A newly accepted socket is open, alive, has no role and no session, and joins the client list last. */
  lemma ConnectionOpensClient(s: State, id: ConnId)
    requires Valid(s) && id !in s.conns
    ensures var r := Step(s, Connection(id));
      && r.Next? && r.t.outs == []
      && r.t.state.conns[id] == Conn(Open, None, None, true)
      && r.t.state.clients == s.clients + [id]
      && r.t.state.sessions == s.sessions
      && (forall x :: x in s.conns ==> x in r.t.state.conns && r.t.state.conns[x] == s.conns[x])
  {
  }

  /** A pong marks the socket alive and changes nothing else. */
  lemma PongMarksAlive(s: State, id: ConnId)
    requires Valid(s) && id in s.conns
    ensures var r := Step(s, PongFrame(id));
      && r.Next? && r.t.outs == []
      && r.t.state.conns[id] == s.conns[id].(isAlive := true)
      && (forall x :: x in s.conns && x != id ==> r.t.state.conns[x] == s.conns[x])
      && r.t.state.sessions == s.sessions
  {
  }

  /**
   * One heartbeat probes every client once, in `wss.clients` order: a client
   * that did not answer the previous probe is terminated, any other is marked
   * not alive and pinged. Sessions and non-clients are untouched.
   */
  lemma HeartbeatProbesEveryClient(s: State)
    requires Valid(s)
    ensures var r := Step(s, HeartbeatTick);
      && r.Next?
      && r.t.state.sessions == s.sessions
      && |r.t.outs| == |s.clients|
      && (forall k :: 0 <= k < |s.clients| ==>
            r.t.outs[k] == (if s.conns[s.clients[k]].isAlive then PingFrame(s.clients[k]) else Terminate(s.clients[k])))
      && (forall id :: id in s.conns && id in s.clients && !s.conns[id].isAlive ==> r.t.state.conns[id].ready != Open)
      && (forall id :: id in s.conns && id in s.clients && s.conns[id].isAlive ==>
            r.t.state.conns[id] == s.conns[id].(isAlive := false))
      && (forall id :: id in s.conns && id !in s.clients ==> r.t.state.conns[id] == s.conns[id])
  {
  }

  /** Two heartbeats with no pong in between leave no socket open. */
  lemma SilentSocketsDieWithinTwoTicks(s: State)
    requires Valid(s)
    ensures var r1 := Step(s, HeartbeatTick);
      && r1.Next? && Valid(r1.t.state)
      && var r2 := Step(r1.t.state, HeartbeatTick);
         && r2.Next?
         && forall id :: id in s.conns ==> id in r2.t.state.conns && r2.t.state.conns[id].ready != Open
  {
    StepPreservesValid(s, HeartbeatTick);
  }

  /** A socket that answers the first probe survives the second heartbeat and is probed again. */
  lemma PongBetweenTicksKeepsAlive(s: State, id: ConnId)
    requires Valid(s) && IsOpen(s, id) && s.conns[id].isAlive
    ensures var r1 := Step(s, HeartbeatTick);
      && r1.Next? && Valid(r1.t.state)
      && var r2 := Step(r1.t.state, PongFrame(id));
         && r2.Next? && Valid(r2.t.state)
         && var r3 := Step(r2.t.state, HeartbeatTick);
            && r3.Next? && IsOpen(r3.t.state, id) && PingFrame(id) in r3.t.outs && Terminate(id) !in r3.t.outs
  {
    StepPreservesValid(s, HeartbeatTick);
    HeartbeatProbesEveryClient(s);
    var s1 := Step(s, HeartbeatTick).t.state;
    assert IsOpen(s1, id);
    StepPreservesValid(s1, PongFrame(id));
    PongMarksAlive(s1, id);
    var s2 := Step(s1, PongFrame(id)).t.state;
    assert IsOpen(s2, id) && s2.conns[id].isAlive;
    AliveClientIsPinged(s2, id);
  }

  /** A client that answered its last probe is pinged, not terminated, by the next heartbeat. */
  lemma AliveClientIsPinged(s: State, id: ConnId)
    requires Valid(s) && IsOpen(s, id) && s.conns[id].isAlive
    ensures var r := Step(s, HeartbeatTick);
      r.Next? && IsOpen(r.t.state, id) && PingFrame(id) in r.t.outs && Terminate(id) !in r.t.outs
  {
    HeartbeatProbesEveryClient(s);
    var k :| 0 <= k < |s.clients| && s.clients[k] == id;
    var r := Step(s, HeartbeatTick);
    assert r.t.outs[k] == PingFrame(id);
    forall j | 0 <= j < |s.clients| ensures r.t.outs[j] != Terminate(id) {
      if j != k {
        assert s.clients[j] != id;
      }
    }
  }

  /** A socket that is the phone or pc of some live session strictly older than the timeout. */
  ghost predicate OwnedByExpired(sessions: map<string, Session>, now: int, id: ConnId)
  {
    exists code :: code in sessions && Expired(sessions[code], now)
      && (sessions[code].phone == id || sessions[code].pc == Some(id))
  }

  /**
   * The cleanup tick removes exactly the sessions strictly older than the
   * timeout, whatever their traffic, keeps the others unchanged, and terminates
   * exactly the phone and pc sockets of the removed ones.
   */
  lemma SweepRemovesExactlyExpired(s: State, now: int)
    requires Valid(s)
    ensures var r := Step(s, CleanupTick(now));
      && r.Next?
      && (forall c :: c in r.t.state.sessions <==> c in s.sessions && !Expired(s.sessions[c], now))
      && (forall c :: c in r.t.state.sessions ==> r.t.state.sessions[c] == s.sessions[c])
      && (forall id :: id in s.conns && OwnedByExpired(s.sessions, now, id) ==>
            Terminate(id) in r.t.outs && r.t.state.conns[id].ready != Open)
      && (forall id :: id in s.conns && !OwnedByExpired(s.sessions, now, id) ==> r.t.state.conns[id] == s.conns[id])
      && (forall o :: o in r.t.outs ==> o.Terminate? && OwnedByExpired(s.sessions, now, o.to))
  {
    assert Step(s, CleanupTick(now)) == Next(SweepOver(s, s.sessionOrder, now));
    SweepOfAllSessions(s, now);
  }

  /** `SweepRemovesExactlyExpired` for the sweep itself, over the keys in insertion order. */
  lemma SweepOfAllSessions(s: State, now: int)
    requires forall code :: code in s.sessionOrder <==> code in s.sessions
    ensures var t := SweepOver(s, s.sessionOrder, now);
      && (forall c :: c in t.state.sessions <==> c in s.sessions && !Expired(s.sessions[c], now))
      && (forall c :: c in t.state.sessions ==> t.state.sessions[c] == s.sessions[c])
      && (forall id :: id in s.conns && OwnedByExpired(s.sessions, now, id) ==>
            Terminate(id) in t.outs && t.state.conns[id].ready != Open)
      && (forall id :: id in s.conns && !OwnedByExpired(s.sessions, now, id) ==> t.state.conns[id] == s.conns[id])
      && (forall o :: o in t.outs ==> o.Terminate? && OwnedByExpired(s.sessions, now, o.to))
  {
    SweepSessions(s, s.sessionOrder, now);
    SweepConns(s, s.sessionOrder, now);
    SweepTerminates(s, s.sessionOrder, now);
    SweptAllIsOwnedByExpired(s, now);
  }

  /** Sweeping every live key terminates exactly the sockets of expired sessions. */
  lemma SweptAllIsOwnedByExpired(s: State, now: int)
    requires forall code :: code in s.sessionOrder <==> code in s.sessions
    ensures forall id :: Swept(s.sessions, s.sessionOrder, now, id) <==> OwnedByExpired(s.sessions, now, id)
  {
    forall id ensures Swept(s.sessions, s.sessionOrder, now, id) <==> OwnedByExpired(s.sessions, now, id) {
      if OwnedByExpired(s.sessions, now, id) {
        var code :| code in s.sessions && Expired(s.sessions[code], now)
          && (s.sessions[code].phone == id || s.sessions[code].pc == Some(id));
        assert code in s.sessionOrder;
      }
    }
  }
}

=== FILE: protocol.dfy ===
/**
 * The `switch (msg.type)` of the message handler as a static table: which
 * declared types are handled locally and which are relayed, by which branch.
 */
module Protocol {
  import opened Optional

  const PHONE_REGISTER: string := "phone_register"
  const PC_CONNECT: string := "pc_connect"
  const PING: string := "ping"

  /** The case labels of the first relay branch (controller actions and data requests). */
  const COMMAND_TYPES: set<string> := {
    "touch", "key", "text_input", "swipe", "scroll", "back", "home", "recents",
    "volume_up", "volume_down", "request_screen", "request_info",
    "request_notifications", "request_sms", "send_sms", "request_files",
    "download_file", "upload_file", "request_apps", "launch_app",
    "request_battery", "request_clipboard", "set_clipboard", "shell_command",
    "screen_config"
  }

  /** The case labels of the second relay branch (device data and telemetry). */
  const EVENT_TYPES: set<string> := {
    "screen_frame", "notification", "sms_list", "sms_sent", "file_list",
    "file_data", "app_list", "device_info", "battery_info", "clipboard_data",
    "shell_result", "phone_status"
  }

  /** The branch of the dispatch a parsed message takes. */
  datatype Route = Register | Connect | Command | Event | Ping | Forward

  /** Every declared type the dispatch names explicitly. */
  function KnownTypes(): set<string>
  {
    {PHONE_REGISTER, PC_CONNECT, PING} + COMMAND_TYPES + EVENT_TYPES
  }

  /**
   * The branch a message whose `type` is `t` takes (`None`: `type` is missing
   * or not a string). Each explicit branch is taken exactly for its labels, and
   * the default branch exactly for everything the labels do not name.
   */
  function Classify(t: Option<string>): (r: Route)
    ensures r == Register <==> t == Some(PHONE_REGISTER)
    ensures r == Connect <==> t == Some(PC_CONNECT)
    ensures r == Ping <==> t == Some(PING)
    ensures r == Command <==> t.Some? && t.value in COMMAND_TYPES
    ensures r == Event <==> t.Some? && t.value in EVENT_TYPES
    ensures r == Forward <==> t.None? || t.value !in KnownTypes()
  {
    match t
    case None => Forward
    case Some(name) =>
      if name == PHONE_REGISTER then Register
      else if name == PC_CONNECT then Connect
      else if name in COMMAND_TYPES then Command
      else if name in EVENT_TYPES then Event
      else if name == PING then Ping
      else Forward
  }
}

=== FILE: seqs.dfy ===
/** Sequences used as insertion-ordered sets: the broker's `Map` and `Set` iterate in insertion order. */
module Seqs {

  /** No element occurs twice. */
  predicate NoDups<T(==)>(xs: seq<T>)
  {
    forall i, j :: 0 <= i < j < |xs| ==> xs[i] != xs[j]
  }

  /** `xs` with every occurrence of `x` deleted, the others kept in order (a `Set`/`Map` delete). */
  function Without<T(==,!new)>(xs: seq<T>, x: T): (r: seq<T>)
    ensures forall y :: y in r <==> y in xs && y != x
    ensures NoDups(xs) ==> NoDups(r)
    ensures x in xs && NoDups(xs) ==> |r| == |xs| - 1
    ensures x !in xs ==> r == xs
  {
    if |xs| == 0 then []
    else if xs[0] == x then Without(xs[1..], x)
    else
      var rest := Without(xs[1..], x);
      assert NoDups(xs) ==> xs[0] !in xs[1..];
      [xs[0]] + rest
  }

  /** The set of elements of a sequence. */
  function Elems<T>(xs: seq<T>): set<T>
  {
    set x | x in xs
  }

  /** A duplicate-free sequence has as many elements as its set. */
  lemma {:induction false} DistinctCount<T>(xs: seq<T>)
    requires NoDups(xs)
    ensures |Elems(xs)| == |xs|
  {
    if |xs| > 0 {
      var tail := xs[1..];
      assert NoDups(tail) by {
        forall i, j | 0 <= i < j < |tail| ensures tail[i] != tail[j] {
          assert tail[i] == xs[i + 1] && tail[j] == xs[j + 1];
        }
      }
      DistinctCount(tail);
      assert xs[0] !in tail by {
        forall i | 0 <= i < |tail| ensures tail[i] != xs[0] {
          assert tail[i] == xs[i + 1];
        }
      }
      assert Elems(xs) == {xs[0]} + Elems(tail) by {
        assert xs == [xs[0]] + tail;
      }
    }
  }
}
